=== FILE: README.md ===
# sChan forum core in Dafny

This project models the in-memory behaviour of sChan, a small imageboard server. Visitors post threads and replies on topic boards. Each board's threads are kept under a 50-thread cap, and each thread's posts under a 500-post cap. A captcha guards every post, and reserved ("special") display names must type a longer phrase. Two role flags in the session open the moderator and administrator gates.

The persisted state is modelled as a `Forum`: the board registry (`boards`) plus a map from board id to that board's thread sequence (the `threads_<id>` key). Each modelled route becomes one pure, atomic transition of this state. Randomness and the clock enter as parameters: thread and post ids, `Date.now()`, and the six `Math.random()` draws of a captcha. The processed media paths are parameters too.

Modules, one per component:

- `Text`: optional values with JavaScript truthiness, ASCII `toLowerCase`, and substring search (an unanchored regex alternative).
- `Threads`: posts and threads; creation under the thread cap (stable sort by `lastPostTime`, then truncation); replies under the post cap; lookup by id; the board invariant.
- `Boards`: the default board list, `initializeBoards`, `updateBoards`, and the `Forum` state.
- `Sessions`: the session flags, the `isAdmin`/`isMod` gates, the login routes and logout.
- `Captcha`: captcha generation and `verifyCaptcha` with its three-valued result.
- `Uploads`: multer's `fileFilter` together with POSIX `path.extname`.
- `Handlers`: the create-thread and reply routes, composed from the above.

Three details of the program shape the model:

- The 50-thread cap is applied only when a thread is created (index.js:683-686). A reply keeps the board's length, so the cap still holds afterwards (`Handlers.ReplyToThreadPreservesInvariant`).
- Threads are stored in insertion order, except after a truncation. Only the board page sorts them (index.js:560, `Threads.ListThreads`).
- The route that resets the registry to the default boards (`GET /admin/update-boards`, index.js:779) has no `isAdmin` gate, so any visitor can run `Boards.UpdateBoards`. Existing thread collections survive it.

## Model

| member | source | states |
|---|---|---|
| Text.Contains | index.js:79-81 | true exactly when the token occurs at some position of the string; which is what an unanchored regular-expression test does for each literal alternative |
| Threads.NewPost | index.js:754-761 | the post has the given id and timestamp and keeps the submitted content and media; a missing or empty name becomes "Anonymous" |
| Threads.NewThread | index.js:662-677 | the new thread has exactly one post, `postCount` 1, and `lastPostTime` equal to that post's timestamp; a missing subject becomes "No subject"; with a body it satisfies the thread invariant |
| Threads.InsertIsPermutation | index.js:684 | inserting one thread adds exactly that thread and nothing else |
| Threads.InsertKeepsSorted | index.js:684 | inserting into a board sorted by recency keeps it sorted |
| Threads.SortByRecency | index.js:684 | the result is a permutation of the input, ordered by `lastPostTime` descending |
| Threads.AddThread | index.js:679-686 | the board holds at most 50 threads afterwards; with fewer than 50 before, the new thread is simply appended; otherwise the result is exactly 50 threads sorted by recency, each an unchanged member of old threads plus the new one |
| Threads.AddThreadEvictsLeastRecent | index.js:683-686 | every dropped thread is no more recent than every kept thread |
| Threads.NewestThreadSurvives | index.js:679-686 | a new thread strictly more recent than all existing ones is never evicted |
| Threads.AddThreadPreservesInvariant | index.js:662-688 | creating a well-formed thread keeps the board invariant: at most 50 threads, each with 1..500 posts that all have a body, `postCount` at least the number of kept posts, and `lastPostTime` equal to the last post's timestamp |
| Threads.FindThread | index.js:732 | returns the first index whose thread has the id, or -1 exactly when no thread has it |
| Threads.TrimPosts | index.js:767-770 | the result is a suffix of the posts, of length min(n, 500) |
| Threads.AppendReply | index.js:763-770 | the reply is the thread's last post; `postCount` grows by exactly one; `lastPostTime` becomes the reply's timestamp; at most 500 posts remain; id and subject are unchanged |
| Threads.ReplyKeepsNewestPosts | index.js:763-770 | after a reply the posts before the new one are the newest old posts in their old order, and the post count kept is min(n+1, 500) |
| Threads.Reply | index.js:731-770 | not-found exactly when no thread has the id; otherwise only the first matching thread changes, and the order and all other threads stay as they were |
| Threads.PostCountOutgrowsPosts | index.js:765-770 | on a full thread a reply keeps 500 posts while `postCount` rises above 500 |
| Threads.AppendReplyPreservesInvariant | index.js:754-770 | a reply with a body keeps the thread invariant: 1..500 posts, each with a body, `postCount` at least the number of posts, `lastPostTime` equal to the last post's timestamp |
| Threads.ReplyPreservesInvariant | index.js:754-772 | a reply with a body keeps the board invariant |
| Threads.GetThread | index.js:587-592 | the thread page shows the first thread with the id (the one `FindThread` finds), and not-found exactly when none has it |
| Threads.ReplyThenGet | index.js:731-772 | reading a thread back after replying to it gives the updated thread |
| Threads.AddThreadThenGet | index.js:679-688 | on a board with fewer than 50 threads, a new thread with an unused id is found again by that id |
| Threads.ListThreads | index.js:557-560 | the board page lists a permutation of the board's threads, most recently active first |
| Boards.SeedBoards | index.js:238-243 | existing boards keep their order as a prefix of the result |
| Boards.SeedOne | index.js:239-242 | after one step the board's id is registered; the forum changes only when the id was not registered, and then only by appending the board and writing an empty collection for it |
| Boards.SeedBoardsRegisters | index.js:238-243 | every pending board's id ends up registered |
| Boards.SeedBoardsAddsOnlyNew | index.js:238-243 | each added board is a pending board whose id was not registered before |
| Boards.SeedBoardsKeepsUnique | index.js:238-243 | unique board ids stay unique |
| Boards.SeedBoardsThreads | index.js:238-243 | empty thread collections are written exactly for the added ids, and every other collection is kept |
| Boards.SeedInto | index.js:233-247 | start-up seeding, which `initializeBoards` runs with the default boards: the persisted list (empty when absent) is a prefix of the result; every pending id is present; each appended board is a pending board whose id was not registered before, so no persisted board is added again or has its threads wiped; unique ids stay unique, so no pending board is registered twice; only newly added ids get a fresh empty thread list |
| Boards.InitializeBoards | index.js:233-247 | every default board id is registered afterwards, and unique persisted ids stay unique; the rest of its contract is that of `Boards.SeedInto` with the default boards as the pending list |
| Boards.SeedBoardsIdempotent | index.js:238-243 | seeding a second time changes nothing |
| Boards.SeedPresentIsIdentity | index.js:238-243 | when every pending id is already registered, seeding leaves the forum unchanged |
| Boards.AddMissingThreadKeys | index.js:252-256 | every listed board gets a thread collection; existing collections are untouched; only new keys are written, each empty |
| Boards.UpdateBoards | index.js:250-260 | the registry becomes exactly the default list; every default board has a thread collection; existing collections are kept (the route that runs it, index.js:779, has no role gate) |
| Boards.InitializeAfterUpdate | index.js:233-260 | after `updateBoards`, start-up seeding is a no-op |
| Sessions.AdminGate | index.js:302-313 | a configuration error exactly when the admin password is unset, whatever the session; otherwise access is granted exactly when `isAdmin` is set |
| Sessions.ModGate | index.js:315-326 | a configuration error exactly when the moderator password is unset; otherwise access is granted exactly when `isMod` or `isAdmin` is set |
| Sessions.AdminImpliesMod | index.js:302-326 | whoever passes the admin gate passes the moderator gate once a moderator password is configured |
| Sessions.CheckPassword | index.js:332-348 | success exactly when a password is configured and the submitted one equals it; a configuration error exactly when none is configured; "password required" exactly when one is configured but none was submitted |
| Sessions.LoginAdmin | index.js:329-349 | success exactly on the configured admin password; 500 exactly when none is configured, 400 exactly when it is configured and no password is submitted, 401 exactly on a wrong one; success sets both `isAdmin` and `isMod`; a failure leaves the session unchanged |
| Sessions.LoginMod | index.js:351-370 | success exactly on the configured moderator password; 500 exactly when none is configured, 400 exactly when it is configured and no password is submitted, 401 exactly on a wrong one; success sets only `isMod`; a failure leaves the session unchanged |
| Sessions.LoginAdminOpensBothGates | index.js:341-343 | after an admin login both gates grant access |
| Sessions.LoginModOpensModGateOnly | index.js:363-365 | after a moderator login the moderator gate grants access and the admin gate answers as before |
| Sessions.Logout | index.js:373-382 | the destroyed session carries no role and no captcha |
| Sessions.LogoutClosesGates | index.js:373-382 | after logout neither gate grants access |
| Captcha.Pick | index.js:133 | one `Math.random()` draw in [0, 1) selects a character of the 54-character alphabet |
| Captcha.Generate | index.js:129-139 | the code has six characters, each from the alphabet and chosen by its draw, and it is stored in the session without touching the role flags |
| Captcha.VerifyCaptcha | index.js:268-299 | false when the captcha or the session code is missing or empty; for an ordinary name, true exactly on a case-insensitive match and never the marker; for a reserved name, true exactly when the captcha matches code+"42"+name+"42069" case-insensitively, and otherwise the marker, never plain false |
| Captcha.VerifyIgnoresCase | index.js:293-298 | the verdict does not change when the letter case of the captcha or of the session code changes |
| Captcha.SpecialNamePlainCodeFails | index.js:291-295 | a reserved name that types only the plain code gets the hidden failure |
| Captcha.SpecialPhraseAccepted | index.js:291-295 | a reserved name that types the special phrase, in any letter case, is accepted |
| Captcha.GeneratedCodeAccepted | index.js:297-298 | a six-character code typed back in any letter case by an ordinary name is accepted |
| Uploads.ExtName | index.js:80 | the extension is empty, or it starts with '.' and contains no further '.' and no '/' |
| Uploads.ExtNameOfFileName | index.js:80 | for a name without '/' whose last '.' is not its first character, the extension runs from that '.' to the end |
| Uploads.FileFilter | index.js:76-102 | an image-field file is accepted exactly when its lower-cased extension and its MIME type each contain one of jpeg, jpg, png, gif, webp; the same for video with mp4 and webm; any other field is refused as unexpected; each refusal carries its message |
| Uploads.NoExtensionRejected | index.js:76-102 | a file without an extension is refused on every field |
| Uploads.UpperCaseMimeTypeRejected | index.js:81 | the MIME type is not lower-cased, so one without a lower-case letter (such as "IMAGE/PNG") is refused on every field, whatever the file's name |
| Handlers.Precheck | index.js:618-644 | the routes proceed exactly when the captcha is accepted, the post has text, an image or a video, and the board exists; otherwise the first failing check picks the response, in that order |
| Handlers.CreateThread | index.js:610-692 | a thread is created exactly when the prechecks pass; otherwise the forum is unchanged; on success only the target board's collection changes and it holds at most 50 threads |
| Handlers.ReplyToThread | index.js:695-776 | a reply is posted exactly when the prechecks pass and some thread on the board has the id; when the prechecks pass and no thread has the id the answer is not-found with the forum unchanged; every precheck failure leaves the forum unchanged; on success only the first matching thread of that board changes |
| Handlers.CreateThreadPreservesInvariant | index.js:658-688 | thread creation keeps every board within its caps and the thread invariant |
| Handlers.ReplyToThreadPreservesInvariant | index.js:751-772 | a reply keeps every board within its caps and the thread invariant |
| Handlers.CreatedThreadIsShown | index.js:658-691 | on a board that is not full, the thread page for the new id shows the new thread, unless an older thread already uses that id |
| Handlers.ReplyIsShownLast | index.js:751-775 | after a reply, the thread page shows the reply as the thread's last post |

## Left out

- HTTP routing, redirects and flash messages, Express sessions, multer's disk storage, quick.db persistence and `app.listen` are outside the model. Each route is one pure transition of the `Forum` state. The read-modify-write race between concurrent requests is not modelled.
- `formatPostContent` (index.js:142-175) is left out. It wraps markdown rendering and HTML sanitisation from outside libraries whose behaviour is not visible here.
- `processImage` and `processVideo` (index.js:178-230) are left out: re-encoding, filesystem I/O and floating-point scaling. Their resulting paths enter the handlers as parameters.
- The delete-post, delete-board and ban routes (index.js:385-424) are left out. They are single key deletes or sets behind the gates, and the `posts.<id>` keys they delete are never written anywhere.
- The legacy `/:boardId/post` route (index.js:433-522) and its `isSpecialName` helper (index.js:427-430) are left out. That route repeats the create logic after a reserved-name check against the still-encoded tokens.
- Base64 decoding of the reserved names (index.js:279-289) is left out. The decoded list is a parameter, and empty entries are excluded by the name test.
- `GET /api/special-names` (index.js:525-528) is left out: it splits the still-encoded reserved names on ',' and drops empty entries, and changes no state.
- The index page (index.js:531-539) is left out: it renders the registry and clears the flash message.
- The captcha refresh route and the board and thread pages (index.js:542-607) are left out apart from their lookups (`Threads.ListThreads`, `Threads.GetThread`); the captcha each of them stores is `Captcha.Generate`.
- `Text.Lower` folds only the ASCII letters. JavaScript's `toLowerCase` folds the whole of Unicode.
- Handlers.ReplyToThread and Threads.GetThread take the thread id as an integer. `parseInt` of the path segment (index.js:588, index.js:732) is not modelled; a non-numeric segment yields NaN, which matches no thread, so both take the not-found path.
- Captcha.Pick: the draw is an exact real in [0, 1) and the index is the floor of its exact product with 54. index.js:133 multiplies in IEEE double precision, whose rounding can land on the next integer, so for some draws the source picks the following character of the alphabet. Every pick is still an alphabet character.
- Threads.SortByRecency: the contract states sortedness and permutation but not stability. The body is a stable insertion sort, matching JavaScript's stable `Array.prototype.sort`, so among equally recent threads it decides which ones a truncation keeps.
- Uploads.ExtName: only the form of the result is stated in general; the full value is stated for plain file names (`Uploads.ExtNameOfFileName`).
- Upload size limits (index.js:104-108) are left out because multer enforces them during transport.
- The captcha alphabet's exclusion of ambiguous characters is stated only in a comment, not proved.

=== FILE: boards.dfy ===
/** The board registry and the forum's persisted state: the list of boards
    and, per board id, the board's thread collection (`threads_<id>`). */
module Boards {
  import opened Text
  import opened Threads

  datatype Board = Board(id: string, name: string, description: string)

  /** The persisted state. `threads` maps a board id to the value stored under
      `threads_<id>`; a board id with no entry reads as the empty collection. */
  datatype Forum = Forum(boards: seq<Board>, threads: map<string, seq<Thread>>)

  /** The boards the server seeds at start-up, in order. */
  const DefaultBoards: seq<Board> := [
    Board("b", "Random", "Random discussion"),
    Board("a", "Anime", "Anime & Manga discussion"),
    Board("sanrio", "Sanrio", "Discussion about Sanrio characters, cartoons, products, and their universes"),
    Board("vocal", "Vocaloid-like", "Discussion about Vocal and Singing software, characters, songs, products, and their universes"),
    Board("pol", "Politics", "Political discussion"),
    Board("g", "Technology", "Technology discussion"),
    Board("p", "Photography", "Photography discussion"),
    Board("hen", "*NSFW* Hentai", "*NSFW* First-party porn of Anime and Manga characters"),
    Board("r34", "*NSFW* r34", "*NSFW* If it exists, there's porn of it. Third-party porn of cartoons, anime, and manga."),
    Board("coom", "*NSFW* Coomer Zone", "*NSFW* Porn of anything and everything legal, including real people."),
    Board("wtf", "*NSFW* WTF", "*NSFW* Shit that makes you mad, sad, or just makes you go \"wtf\""),
    Board("foss", "Open Source", "Talk about open source projects and software"),
    Board("sci", "Science", "Science discussion"),
    Board("art", "Art", "Art discussion"),
    Board("moozie", "Music", "Music discussion"),
    Board("srcleak", "Source Code Leaks", "Leaks of source code, programming documentation, and other technical documents"),
    Board("leak", "Random Leaks", "Leaks of anything and everything, including but not limited to source code."),
    Board("food", "Food", "Food discussion"),
    Board("game", "Video Games", "Video Game discussion"),
    Board("appl", "Apple", "Talk about the joys of Apple products, services, and the company.")
  ]

  /** `boards.some(board => board.id === id)`. */
  predicate HasId(boards: seq<Board>, id: string) {
    exists i :: 0 <= i < |boards| && boards[i].id == id
  }

  /** Every board of `pending` has its id registered in `boards`. */
  predicate RegistersAll(boards: seq<Board>, pending: seq<Board>) {
    forall k :: 0 <= k < |pending| ==> HasId(boards, pending[k].id)
  }

  ghost predicate UniqueIds(boards: seq<Board>) {
    forall i, j :: 0 <= i < j < |boards| ==> boards[i].id != boards[j].id
  }

  /** The ids of the boards from position `from` on. */
  ghost function IdsFrom(boards: seq<Board>, from: nat): set<string> {
    set i | from <= i < |boards| :: boards[i].id
  }

  ghost function DefaultIds(): set<string> {
    IdsFrom(DefaultBoards, 0)
  }

  /** `db.get('threads_' + id) || []`. */
  function ThreadsOf(f: Forum, id: string): seq<Thread> {
    if id in f.threads then f.threads[id] else []
  }

  /** Adds, in order, each pending board whose id is not yet registered, and
      writes an empty thread collection for it; boards already registered
      keep their entry and their threads. */
  function SeedBoards(f: Forum, pending: seq<Board>): (r: Forum)
    ensures |f.boards| <= |r.boards| && r.boards[..|f.boards|] == f.boards
    decreases |pending|
  {
    if pending == [] then f
    else SeedBoards(SeedOne(f, pending[0]), pending[1..])
  }

  /** One step of `SeedBoards`: registers `d` unless its id is registered. */
  function SeedOne(f: Forum, d: Board): (g: Forum)
    ensures HasId(g.boards, d.id)
    ensures g == f || (!HasId(f.boards, d.id) && g == Forum(f.boards + [d], f.threads[d.id := []]))
  {
    if HasId(f.boards, d.id) then f
    else
      var g := Forum(f.boards + [d], f.threads[d.id := []]);
      assert g.boards[|f.boards|] == d;
      g
  }

  /** A registered id stays registered when boards are appended. */
  lemma HasIdPrefix(a: seq<Board>, b: seq<Board>)
    requires |a| <= |b| && b[..|a|] == a
    ensures forall id :: HasId(a, id) ==> HasId(b, id)
  {
    forall id | HasId(a, id) ensures HasId(b, id) {
      var i :| 0 <= i < |a| && a[i].id == id;
      assert b[i] == a[i];
    }
  }

  /** After seeding, every pending board's id is registered. */
  lemma {:induction false} SeedBoardsRegisters(f: Forum, pending: seq<Board>)
    ensures forall k :: 0 <= k < |pending| ==> HasId(SeedBoards(f, pending).boards, pending[k].id)
    decreases |pending|
  {
    if pending != [] {
      var g := SeedOne(f, pending[0]);
      var r := SeedBoards(g, pending[1..]);
      SeedBoardsRegisters(g, pending[1..]);
      HasIdPrefix(g.boards, r.boards);
      forall k | 0 <= k < |pending| ensures HasId(r.boards, pending[k].id) {
        if k > 0 {
          assert pending[k] == pending[1..][k - 1];
        }
      }
    }
  }

  /** Seeding only appends pending boards whose id was not registered before. */
  lemma {:induction false} SeedBoardsAddsOnlyNew(f: Forum, pending: seq<Board>)
    ensures forall i :: |f.boards| <= i < |SeedBoards(f, pending).boards| ==>
              && SeedBoards(f, pending).boards[i] in pending
              && !HasId(f.boards, SeedBoards(f, pending).boards[i].id)
    decreases |pending|
  {
    if pending != [] {
      var d := pending[0];
      var g := SeedOne(f, d);
      var r := SeedBoards(g, pending[1..]);
      SeedBoardsAddsOnlyNew(g, pending[1..]);
      HasIdPrefix(f.boards, g.boards);
      forall i | |f.boards| <= i < |r.boards|
        ensures r.boards[i] in pending && !HasId(f.boards, r.boards[i].id)
      {
        if i < |g.boards| {
          assert r.boards[i] == g.boards[i] == d;
        } else {
          var b := r.boards[i];
          assert b in pending[1..] && !HasId(g.boards, b.id);
          assert b in pending by {
            var j :| 0 <= j < |pending[1..]| && pending[1..][j] == b;
            assert pending[j + 1] == b;
          }
        }
      }
    }
  }

  /** Seeding keeps board ids unique. */
  lemma {:induction false} SeedBoardsKeepsUnique(f: Forum, pending: seq<Board>)
    requires UniqueIds(f.boards)
    ensures UniqueIds(SeedBoards(f, pending).boards)
    decreases |pending|
  {
    if pending != [] {
      var d := pending[0];
      var g := SeedOne(f, d);
      if g != f {
        forall i, j | 0 <= i < j < |g.boards| ensures g.boards[i].id != g.boards[j].id {
          assert g.boards[i] == f.boards[i];
          if j < |f.boards| {
            assert g.boards[j] == f.boards[j];
          }
        }
      }
      SeedBoardsKeepsUnique(g, pending[1..]);
    }
  }

  /** The ids from position `n` are the id at `n` and those after it. */
  lemma IdsFromStep(boards: seq<Board>, n: nat)
    requires n < |boards|
    ensures IdsFrom(boards, n) == {boards[n].id} + IdsFrom(boards, n + 1)
  {
    forall id | id in IdsFrom(boards, n) ensures id in {boards[n].id} + IdsFrom(boards, n + 1) {
      var i :| n <= i < |boards| && boards[i].id == id;
    }
  }

  /** Seeding writes an empty thread collection exactly for the boards it
      adds and keeps every other collection. */
  lemma {:induction false} SeedBoardsThreads(f: Forum, pending: seq<Board>)
    ensures var r := SeedBoards(f, pending);
      && r.threads.Keys == f.threads.Keys + IdsFrom(r.boards, |f.boards|)
      && (forall id :: id in IdsFrom(r.boards, |f.boards|) ==> r.threads[id] == [])
      && (forall id :: id in f.threads && id !in IdsFrom(r.boards, |f.boards|) ==>
            r.threads[id] == f.threads[id])
    decreases |pending|
  {
    if pending != [] {
      var d := pending[0];
      var g := SeedOne(f, d);
      var r := SeedBoards(g, pending[1..]);
      SeedBoardsThreads(g, pending[1..]);
      if g != f {
        var n := |f.boards|;
        var later := IdsFrom(r.boards, n + 1);
        assert r.boards[n] == g.boards[n] == d;
        IdsFromStep(r.boards, n);
        assert g.threads == f.threads[d.id := []];
        assert r.threads.Keys == g.threads.Keys + later;
        assert forall id :: id in later ==> r.threads[id] == [];
        assert forall id :: id in g.threads && id !in later ==> r.threads[id] == g.threads[id];
      }
    }
  }

  /** Seeding `pending` into a persisted list (empty when absent): the list
      stays a prefix, every pending id ends up registered, and exactly the
      added ids get a fresh empty thread collection. */
  function SeedInto(persisted: Option<seq<Board>>, threads: map<string, seq<Thread>>,
                    pending: seq<Board>): (r: Forum)
    ensures var before := persisted.GetOr([]);
      && |before| <= |r.boards| && r.boards[..|before|] == before
      && r.threads.Keys == threads.Keys + IdsFrom(r.boards, |before|)
      && (forall id :: id in threads && id !in IdsFrom(r.boards, |before|) ==> r.threads[id] == threads[id])
      && (forall id :: id in IdsFrom(r.boards, |before|) ==> r.threads[id] == [])
    ensures RegistersAll(r.boards, pending)
    ensures forall i :: |persisted.GetOr([])| <= i < |r.boards| ==>
              r.boards[i] in pending && !HasId(persisted.GetOr([]), r.boards[i].id)
    ensures UniqueIds(persisted.GetOr([])) ==> UniqueIds(r.boards)
  {
    var f := Forum(persisted.GetOr([]), threads);
    SeedBoardsRegisters(f, pending);
    SeedBoardsAddsOnlyNew(f, pending);
    assert UniqueIds(f.boards) ==> UniqueIds(SeedBoards(f, pending).boards) by {
      if UniqueIds(f.boards) {
        SeedBoardsKeepsUnique(f, pending);
      }
    }
    SeedBoardsThreads(f, pending);
    SeedBoards(f, pending)
  }

  /** `initializeBoards`: the persisted list (empty when absent) merged with
      the default boards; `SeedInto` states what it guarantees. */
  function InitializeBoards(persisted: Option<seq<Board>>, threads: map<string, seq<Thread>>): (r: Forum)
    ensures RegistersAll(r.boards, DefaultBoards)
    ensures UniqueIds(persisted.GetOr([])) ==> UniqueIds(r.boards)
  {
    SeedInto(persisted, threads, DefaultBoards)
  }

  /** Seeding twice adds nothing the first seeding did not. */
  lemma {:induction false} SeedBoardsIdempotent(f: Forum, pending: seq<Board>)
    ensures SeedBoards(SeedBoards(f, pending), pending) == SeedBoards(f, pending)
  {
    var r := SeedBoards(f, pending);
    SeedBoardsRegisters(f, pending);
    SeedPresentIsIdentity(r, pending);
  }

  /** Seeding boards that are all registered already changes nothing. */
  lemma {:induction false} SeedPresentIsIdentity(f: Forum, pending: seq<Board>)
    requires forall k :: 0 <= k < |pending| ==> HasId(f.boards, pending[k].id)
    ensures SeedBoards(f, pending) == f
    decreases |pending|
  {
    if pending != [] {
      assert SeedOne(f, pending[0]) == f;
      SeedPresentIsIdentity(f, pending[1..]);
    }
  }

  /** Gives every board of `boards` that has no thread collection an empty
      one; existing collections are left alone. */
  method AddMissingThreadKeys(threads: map<string, seq<Thread>>, boards: seq<Board>)
    returns (r: map<string, seq<Thread>>)
    ensures r.Keys == threads.Keys + IdsFrom(boards, 0)
    ensures forall id :: id in threads ==> r[id] == threads[id]
    ensures forall id :: id in r && id !in threads ==> r[id] == []
  {
    r := threads;
    var i := 0;
    while i < |boards|
      invariant 0 <= i <= |boards|
      invariant r.Keys == threads.Keys + IdsFrom(boards[..i], 0)
      invariant forall id :: id in threads ==> r[id] == threads[id]
      invariant forall id :: id in r && id !in threads ==> r[id] == []
    {
      var id := boards[i].id;
      if id !in r {
        r := r[id := []];
      }
      assert IdsFrom(boards[..i + 1], 0) == IdsFrom(boards[..i], 0) + {id} by {
        assert forall k :: 0 <= k <= i ==> boards[..i + 1][k] == boards[k];
        assert forall k :: 0 <= k < i ==> boards[..i][k] == boards[k];
      }
      i := i + 1;
    }
    assert boards[..i] == boards;
  }

  /** `updateBoards`: the registry becomes exactly the default list, and every
      default board without a thread collection gets an empty one. */
  method UpdateBoards(f: Forum) returns (r: Forum)
    ensures r.boards == DefaultBoards
    ensures r.threads.Keys == f.threads.Keys + DefaultIds()
    ensures forall id :: id in f.threads ==> r.threads[id] == f.threads[id]
    ensures forall id :: id in r.threads && id !in f.threads ==> r.threads[id] == []
  {
    var threads := AddMissingThreadKeys(f.threads, DefaultBoards);
    r := Forum(DefaultBoards, threads);
  }

  /** After `updateBoards`, start-up seeding leaves the forum unchanged. */
  lemma {:induction false} InitializeAfterUpdate(r: Forum)
    requires r.boards == DefaultBoards
    ensures InitializeBoards(Some(r.boards), r.threads) == r
  {
    forall k | 0 <= k < |DefaultBoards|
      ensures HasId(r.boards, DefaultBoards[k].id)
    {
      assert r.boards[k].id == DefaultBoards[k].id;
    }
    SeedPresentIsIdentity(r, DefaultBoards);
  }
}

=== FILE: captcha.dfy ===
/** Captcha generation and the server-side check, including the reserved
    ("special") display names that must submit a longer phrase. */
module Captcha {
  import opened Text
  import opened Sessions

  /** Letters and digits without the easily confused I, L, O, i, l, o, 0, 1. */
  const Alphabet: string := "ABCDEFGHJKMNPQRSTUVWXYZabcdefghjkmnpqrstuvwxyz23456789"
  const CodeLength: nat := 6

  /** The character picked by one draw `u` of `Math.random()`, `0 <= u < 1`. */
  function Pick(u: real): (c: char)
    requires 0.0 <= u < 1.0
    ensures c in Alphabet
  {
    var k := (u * (|Alphabet| as real)).Floor;
    Alphabet[k]
  }

  /** `generateCaptcha`: six draws of `Math.random()` become a six-character
      code, which is stored in the session. */
  method Generate(s: Session, draws: seq<real>) returns (code: string, s': Session)
    requires |draws| == CodeLength
    requires forall i :: 0 <= i < |draws| ==> 0.0 <= draws[i] < 1.0
    ensures |code| == CodeLength
    ensures forall i :: 0 <= i < |code| ==> code[i] in Alphabet && code[i] == Pick(draws[i])
    ensures s' == s.(captchaCode := Some(code))
  {
    code := "";
    var i := 0;
    while i < CodeLength
      invariant 0 <= i <= CodeLength
      invariant |code| == i
      invariant forall k :: 0 <= k < i ==> code[k] == Pick(draws[k])
    {
      code := code + [Pick(draws[i])];
      i := i + 1;
    }
    s' := s.(captchaCode := Some(code));
  }

  /** The three outcomes of `verifyCaptcha`: `false`, `true`, and the truthy
      `{specialNameFailed: true}` marker. */
  datatype Verdict = Rejected | Accepted | SpecialNameFailed

  /** `specialNames.includes(name)` on the decoded list with empty entries
      filtered out. */
  predicate IsSpecialName(name: Option<string>, specialNames: seq<string>) {
    name.Some? && name.value != "" && name.value in specialNames
  }

  /** What a reserved name must type instead of the plain code. */
  function SpecialPhrase(code: string, name: string): string {
    code + "42" + name + "42069"
  }

  /** `verifyCaptcha` for the submitted `captcha` and `name` against the
      session's code. */
  function VerifyCaptcha(captcha: Option<string>, sessionCode: Option<string>,
                         name: Option<string>, specialNames: seq<string>): (v: Verdict)
    ensures !Present(captcha) || !Present(sessionCode) ==> v == Rejected
    ensures Present(captcha) && Present(sessionCode) && !IsSpecialName(name, specialNames) ==>
              v != SpecialNameFailed
              && (v == Accepted <==> EqualsIgnoreCase(captcha.value, sessionCode.value))
    ensures Present(captcha) && Present(sessionCode) && IsSpecialName(name, specialNames) ==>
              v != Rejected
              && (v == Accepted <==>
                  EqualsIgnoreCase(captcha.value, SpecialPhrase(sessionCode.value, name.value)))
  {
    if !Present(captcha) || !Present(sessionCode) then Rejected
    else if IsSpecialName(name, specialNames) then
      if Lower(captcha.value) == Lower(SpecialPhrase(sessionCode.value, name.value))
      then Accepted else SpecialNameFailed
    else if Lower(captcha.value) == Lower(sessionCode.value) then Accepted
    else Rejected
  }

  /** The verdict depends on the submitted captcha and the session code only
      up to letter case. */
  lemma {:induction false} VerifyIgnoresCase(c1: string, c2: string, code1: string, code2: string,
                                             name: Option<string>, specialNames: seq<string>)
    requires EqualsIgnoreCase(c1, c2) && EqualsIgnoreCase(code1, code2)
    ensures VerifyCaptcha(Some(c1), Some(code1), name, specialNames)
         == VerifyCaptcha(Some(c2), Some(code2), name, specialNames)
  {
    if IsSpecialName(name, specialNames) {
      var n := name.value;
      LowerAppend(code1, "42");
      LowerAppend(code2, "42");
      LowerAppend(code1 + "42", n);
      LowerAppend(code2 + "42", n);
      LowerAppend(code1 + "42" + n, "42069");
      LowerAppend(code2 + "42" + n, "42069");
    }
  }

  /** A reserved name that submits only the plain code gets the hidden
      failure, never acceptance. */
  lemma SpecialNamePlainCodeFails(captcha: string, code: string, name: string, specialNames: seq<string>)
    requires code != "" && EqualsIgnoreCase(captcha, code)
    requires IsSpecialName(Some(name), specialNames)
    ensures VerifyCaptcha(Some(captcha), Some(code), Some(name), specialNames) == SpecialNameFailed
  {
    assert |Lower(captcha)| == |code| < |SpecialPhrase(code, name)|;
  }

  /** A reserved name that submits the special phrase, in any letter case,
      is accepted. */
  lemma {:induction false} SpecialPhraseAccepted(captcha: string, code: string, name: string,
                                                 specialNames: seq<string>)
    requires code != "" && EqualsIgnoreCase(captcha, SpecialPhrase(code, name))
    requires IsSpecialName(Some(name), specialNames)
    ensures VerifyCaptcha(Some(captcha), Some(code), Some(name), specialNames) == Accepted
  {
    assert |captcha| == |SpecialPhrase(code, name)| > 0;
  }

  /** A freshly generated code, typed back in any letter case by an ordinary
      name, is accepted. */
  lemma GeneratedCodeAccepted(code: string, typed: string, name: Option<string>, specialNames: seq<string>)
    requires |code| == CodeLength && EqualsIgnoreCase(typed, code)
    requires !IsSpecialName(name, specialNames)
    ensures VerifyCaptcha(Some(typed), Some(code), name, specialNames) == Accepted
  {
    assert |typed| == |Lower(typed)| == |Lower(code)| == CodeLength;
  }
}

=== FILE: handlers.dfy ===
/** The two posting routes — create a thread, reply to a thread — each as one
    atomic transition of the forum state. The uploaded media arrive already
    processed; ids and the clock arrive as parameters. */
module Handlers {
  import opened Text
  import opened Threads
  import opened Boards
  import opened Sessions
  import opened Captcha

  /** The text fields of a posting form. */
  datatype Form = Form(name: Option<string>, subject: Option<string>,
                       content: Option<string>, captcha: Option<string>)

  /** The stored paths of the uploaded image and video, if any. */
  datatype Media = Media(image: Option<string>, video: Option<string>)

  /** What the server draws from its random generator and its clock. */
  datatype Generated = Generated(threadId: int, postId: int, now: int)

  /** How a posting request ends: a redirect with an error flash, the hidden
      500 for a failed reserved name, or success. */
  datatype Response =
    | CaptchaInvalid
    | HiddenError
    | EmptyPost
    | BoardNotFound
    | ThreadNotFound
    | ThreadCreated(threadId: int)
    | ReplyPosted

  datatype Outcome = Outcome(response: Response, forum: Forum)

  /** Every stored board collection satisfies the board invariant. */
  predicate ForumInvariant(f: Forum) {
    forall id :: id in f.threads ==> BoardInvariant(f.threads[id])
  }

  function CaptchaVerdict(s: Session, form: Form, specialNames: seq<string>): Verdict {
    VerifyCaptcha(form.captcha, s.captchaCode, form.name, specialNames)
  }

  /** The checks both routes make before touching the store, in the source's
      order: captcha, reserved-name failure, empty post, unknown board. */
  function Precheck(f: Forum, boardId: string, s: Session, form: Form, media: Media,
                    specialNames: seq<string>): (r: Option<Response>)
    ensures r.None? <==>
              && CaptchaVerdict(s, form, specialNames) == Accepted
              && HasBody(form.content, media.image, media.video)
              && HasId(f.boards, boardId)
    ensures CaptchaVerdict(s, form, specialNames) == Rejected ==> r == Some(CaptchaInvalid)
    ensures CaptchaVerdict(s, form, specialNames) == SpecialNameFailed ==> r == Some(HiddenError)
    ensures (CaptchaVerdict(s, form, specialNames) == Accepted
             && !HasBody(form.content, media.image, media.video)) ==> r == Some(EmptyPost)
    ensures (CaptchaVerdict(s, form, specialNames) == Accepted
             && HasBody(form.content, media.image, media.video)
             && !HasId(f.boards, boardId)) ==> r == Some(BoardNotFound)
  {
    var v := CaptchaVerdict(s, form, specialNames);
    if v == Rejected then Some(CaptchaInvalid)
    else if v == SpecialNameFailed then Some(HiddenError)
    else if !HasBody(form.content, media.image, media.video) then Some(EmptyPost)
    else if !HasId(f.boards, boardId) then Some(BoardNotFound)
    else None
  }

  /** `POST /board/:boardId/thread`. */
  function CreateThread(f: Forum, boardId: string, s: Session, form: Form, media: Media,
                        specialNames: seq<string>, gen: Generated): (o: Outcome)
    ensures o.response.ThreadCreated? <==> Precheck(f, boardId, s, form, media, specialNames).None?
    ensures !o.response.ThreadCreated? ==>
              o == Outcome(Precheck(f, boardId, s, form, media, specialNames).value, f)
    ensures o.response.ThreadCreated? ==>
              var t := NewThread(gen.threadId, gen.postId, gen.now, form.subject,
                                 form.name, form.content, media.image, media.video);
              && o.response.threadId == gen.threadId
              && o.forum.boards == f.boards
              && o.forum.threads.Keys == f.threads.Keys + {boardId}
              && o.forum.threads[boardId] == AddThread(ThreadsOf(f, boardId), t)
              && |o.forum.threads[boardId]| <= MaxThreads
              && (forall id :: id in f.threads && id != boardId ==> o.forum.threads[id] == f.threads[id])
  {
    var pre := Precheck(f, boardId, s, form, media, specialNames);
    if pre.Some? then Outcome(pre.value, f)
    else
      var t := NewThread(gen.threadId, gen.postId, gen.now, form.subject,
                         form.name, form.content, media.image, media.video);
      Outcome(ThreadCreated(gen.threadId),
              f.(threads := f.threads[boardId := AddThread(ThreadsOf(f, boardId), t)]))
  }

  /** `POST /board/:boardId/thread/:threadId/reply`; the thread id is the
      path segment already parsed to an integer. */
  function ReplyToThread(f: Forum, boardId: string, threadId: int, s: Session, form: Form,
                         media: Media, specialNames: seq<string>, gen: Generated): (o: Outcome)
    ensures o.response == ReplyPosted <==>
              && Precheck(f, boardId, s, form, media, specialNames).None?
              && exists k :: 0 <= k < |ThreadsOf(f, boardId)| && ThreadsOf(f, boardId)[k].id == threadId
    ensures Precheck(f, boardId, s, form, media, specialNames).Some? ==>
              o == Outcome(Precheck(f, boardId, s, form, media, specialNames).value, f)
    ensures o.response == ThreadNotFound ==> o.forum == f
    ensures Precheck(f, boardId, s, form, media, specialNames).None?
            && (forall k :: 0 <= k < |ThreadsOf(f, boardId)| ==> ThreadsOf(f, boardId)[k].id != threadId)
            ==> o == Outcome(ThreadNotFound, f)
    ensures o.response == ReplyPosted ==>
              var before := ThreadsOf(f, boardId);
              var i := FindThread(before, threadId);
              var p := NewPost(gen.postId, form.name, form.content, media.image, media.video, gen.now);
              && o.forum.boards == f.boards
              && o.forum.threads.Keys == f.threads.Keys + {boardId}
              && |o.forum.threads[boardId]| == |before|
              && o.forum.threads[boardId][i] == AppendReply(before[i], p)
              && (forall k :: 0 <= k < |before| && k != i ==> o.forum.threads[boardId][k] == before[k])
              && (forall id :: id in f.threads && id != boardId ==> o.forum.threads[id] == f.threads[id])
  {
    var pre := Precheck(f, boardId, s, form, media, specialNames);
    if pre.Some? then Outcome(pre.value, f)
    else
      var p := NewPost(gen.postId, form.name, form.content, media.image, media.video, gen.now);
      match Reply(ThreadsOf(f, boardId), threadId, p)
      case None => Outcome(ThreadNotFound, f)
      case Some(threads) => Outcome(ReplyPosted, f.(threads := f.threads[boardId := threads]))
  }

  /** Creating a thread keeps every board within its caps. */
  lemma CreateThreadPreservesInvariant(f: Forum, boardId: string, s: Session, form: Form,
                                       media: Media, specialNames: seq<string>, gen: Generated)
    requires ForumInvariant(f)
    ensures ForumInvariant(CreateThread(f, boardId, s, form, media, specialNames, gen).forum)
  {
    var o := CreateThread(f, boardId, s, form, media, specialNames, gen);
    if o.response.ThreadCreated? {
      var t := NewThread(gen.threadId, gen.postId, gen.now, form.subject,
                         form.name, form.content, media.image, media.video);
      AddThreadPreservesInvariant(ThreadsOf(f, boardId), t);
    }
  }

  /** Replying keeps every board within its caps. */
  lemma ReplyToThreadPreservesInvariant(f: Forum, boardId: string, threadId: int, s: Session,
                                        form: Form, media: Media, specialNames: seq<string>,
                                        gen: Generated)
    requires ForumInvariant(f)
    ensures ForumInvariant(ReplyToThread(f, boardId, threadId, s, form, media, specialNames, gen).forum)
  {
    var o := ReplyToThread(f, boardId, threadId, s, form, media, specialNames, gen);
    if o.response == ReplyPosted {
      var p := NewPost(gen.postId, form.name, form.content, media.image, media.video, gen.now);
      ReplyPreservesInvariant(ThreadsOf(f, boardId), threadId, p);
    }
  }

  /** On a board that is not full, the thread page finds a freshly created
      thread by its id, unless an older thread already uses that id. */
  lemma CreatedThreadIsShown(f: Forum, boardId: string, s: Session, form: Form, media: Media,
                             specialNames: seq<string>, gen: Generated)
    requires CreateThread(f, boardId, s, form, media, specialNames, gen).response.ThreadCreated?
    requires |ThreadsOf(f, boardId)| < MaxThreads
    requires forall k :: 0 <= k < |ThreadsOf(f, boardId)| ==> ThreadsOf(f, boardId)[k].id != gen.threadId
    ensures var o := CreateThread(f, boardId, s, form, media, specialNames, gen);
      GetThread(ThreadsOf(o.forum, boardId), gen.threadId)
        == Some(NewThread(gen.threadId, gen.postId, gen.now, form.subject,
                          form.name, form.content, media.image, media.video))
  {
    var t := NewThread(gen.threadId, gen.postId, gen.now, form.subject,
                       form.name, form.content, media.image, media.video);
    AddThreadThenGet(ThreadsOf(f, boardId), t);
  }

  /** After a reply, the thread page shows the reply as the thread's last post. */
  lemma ReplyIsShownLast(f: Forum, boardId: string, threadId: int, s: Session, form: Form,
                         media: Media, specialNames: seq<string>, gen: Generated)
    requires ReplyToThread(f, boardId, threadId, s, form, media, specialNames, gen).response == ReplyPosted
    ensures var o := ReplyToThread(f, boardId, threadId, s, form, media, specialNames, gen);
      var shown := GetThread(ThreadsOf(o.forum, boardId), threadId);
      && shown.Some?
      && shown.value.posts[|shown.value.posts| - 1]
           == NewPost(gen.postId, form.name, form.content, media.image, media.video, gen.now)
  {
    var p := NewPost(gen.postId, form.name, form.content, media.image, media.video, gen.now);
    ReplyThenGet(ThreadsOf(f, boardId), threadId, p);
  }
}

=== FILE: sessions.dfy ===
/** Session role flags, the admin and moderator gates, and the login and
    logout routes that drive them. */
module Sessions {
  import opened Text

  /** The server-side session: the last captcha shown and the two role flags. */
  datatype Session = Session(captchaCode: Option<string>, isAdmin: bool, isMod: bool)

  /** The session a visitor has after logging out: destroying the session
      leaves a fresh one with no captcha and no role. */
  const FreshSession := Session(None, false, false)

  /** The role passwords from the environment; a missing or empty one is
      not configured. */
  datatype Config = Config(adminPassword: Option<string>, modPassword: Option<string>)

  /** Outcome of a role gate: pass on, 500 for a missing password, or 403. */
  datatype Gate = Granted | ConfigError | Forbidden

  /** `isAdmin` middleware. */
  function AdminGate(cfg: Config, s: Session): (g: Gate)
    ensures g == ConfigError <==> !Present(cfg.adminPassword)
    ensures g == Granted <==> Present(cfg.adminPassword) && s.isAdmin
  {
    if !Present(cfg.adminPassword) then ConfigError
    else if s.isAdmin then Granted
    else Forbidden
  }

  /** `isMod` middleware: a moderator or an administrator passes. */
  function ModGate(cfg: Config, s: Session): (g: Gate)
    ensures g == ConfigError <==> !Present(cfg.modPassword)
    ensures g == Granted <==> Present(cfg.modPassword) && (s.isMod || s.isAdmin)
  {
    if !Present(cfg.modPassword) then ConfigError
    else if s.isMod || s.isAdmin then Granted
    else Forbidden
  }

  /** Whoever passes the admin gate passes the moderator gate, once a
      moderator password is configured. */
  lemma AdminImpliesMod(cfg: Config, s: Session)
    requires Present(cfg.modPassword)
    ensures AdminGate(cfg, s) == Granted ==> ModGate(cfg, s) == Granted
  {
  }

  /** Status of a login attempt: 200, 500, 400 or 401. */
  datatype LoginStatus = LoggedIn | LoginConfigError | PasswordRequired | InvalidCredentials

  datatype LoginResult = LoginResult(status: LoginStatus, session: Session)

  /** The checks shared by both login routes, in the source's order. */
  function CheckPassword(configured: Option<string>, password: Option<string>): (st: LoginStatus)
    ensures st == LoggedIn <==> Present(configured) && password == configured
    ensures st == LoginConfigError <==> !Present(configured)
    ensures st == PasswordRequired <==> Present(configured) && !Present(password)
  {
    if !Present(configured) then LoginConfigError
    else if !Present(password) then PasswordRequired
    else if password.value == configured.value then LoggedIn
    else InvalidCredentials
  }

  /** `POST /login/admin`: on success the session becomes admin and moderator. */
  function LoginAdmin(cfg: Config, s: Session, password: Option<string>): (r: LoginResult)
    ensures r.status == LoggedIn <==> Present(cfg.adminPassword) && password == cfg.adminPassword
    ensures r.status == LoginConfigError <==> !Present(cfg.adminPassword)
    ensures r.status == PasswordRequired <==> Present(cfg.adminPassword) && !Present(password)
    ensures r.status == InvalidCredentials <==>
              Present(cfg.adminPassword) && Present(password) && password != cfg.adminPassword
    ensures r.status == LoggedIn ==> r.session == s.(isAdmin := true, isMod := true)
    ensures r.status != LoggedIn ==> r.session == s
  {
    var st := CheckPassword(cfg.adminPassword, password);
    LoginResult(st, if st == LoggedIn then s.(isAdmin := true, isMod := true) else s)
  }

  /** `POST /login/mod`: on success only the moderator flag is set. */
  function LoginMod(cfg: Config, s: Session, password: Option<string>): (r: LoginResult)
    ensures r.status == LoggedIn <==> Present(cfg.modPassword) && password == cfg.modPassword
    ensures r.status == LoginConfigError <==> !Present(cfg.modPassword)
    ensures r.status == PasswordRequired <==> Present(cfg.modPassword) && !Present(password)
    ensures r.status == InvalidCredentials <==>
              Present(cfg.modPassword) && Present(password) && password != cfg.modPassword
    ensures r.status == LoggedIn ==> r.session == s.(isMod := true)
    ensures r.status != LoggedIn ==> r.session == s
  {
    var st := CheckPassword(cfg.modPassword, password);
    LoginResult(st, if st == LoggedIn then s.(isMod := true) else s)
  }

  /** An administrator login opens both gates. */
  lemma LoginAdminOpensBothGates(cfg: Config, s: Session, password: Option<string>)
    requires Present(cfg.modPassword)
    requires LoginAdmin(cfg, s, password).status == LoggedIn
    ensures AdminGate(cfg, LoginAdmin(cfg, s, password).session) == Granted
    ensures ModGate(cfg, LoginAdmin(cfg, s, password).session) == Granted
  {
  }

  /** A moderator login opens the moderator gate and leaves the admin gate
      as it was. */
  lemma LoginModOpensModGateOnly(cfg: Config, s: Session, password: Option<string>)
    requires LoginMod(cfg, s, password).status == LoggedIn
    ensures ModGate(cfg, LoginMod(cfg, s, password).session) == Granted
    ensures AdminGate(cfg, LoginMod(cfg, s, password).session) == AdminGate(cfg, s)
  {
  }

  /** `POST /logout`: the whole session is destroyed. */
  function Logout(s: Session): (r: Session)
    ensures !r.isAdmin && !r.isMod && r.captchaCode.None?
  {
    FreshSession
  }

  /** After logging out neither gate grants access. */
  lemma LogoutClosesGates(cfg: Config, s: Session)
    ensures AdminGate(cfg, Logout(s)) != Granted
    ensures ModGate(cfg, Logout(s)) != Granted
  {
  }
}

=== FILE: text.dfy ===
/** Small string vocabulary shared by the forum model: optional values with
    JavaScript truthiness, ASCII lower-casing, and substring search. */
module Text {

  /** An optional value; `None` stands for JavaScript's `undefined`/`null`. */
  datatype Option<+T> = None | Some(value: T) {
    function GetOr(default: T): T {
      match this
      case Some(v) => v
      case None => default
    }
  }

  /** JavaScript truthiness of an optional string: both the missing value and
      the empty string are falsy. */
  predicate Present(s: Option<string>) {
    s.Some? && s.value != ""
  }

  /** `s || fallback` for an optional string. */
  function OrDefault(s: Option<string>, fallback: string): string {
    if Present(s) then s.value else fallback
  }

  /** `toLowerCase` on one character, restricted to the ASCII letters. */
  function LowerChar(c: char): char {
    if 'A' <= c <= 'Z' then (c as int + 32) as char else c
  }

  /** `toLowerCase` on a string, character by character. */
  function Lower(s: string): (r: string)
    ensures |r| == |s|
    ensures forall i :: 0 <= i < |s| ==> r[i] == LowerChar(s[i])
  {
    seq(|s|, i requires 0 <= i < |s| => LowerChar(s[i]))
  }

  /** Case-insensitive equality as the source writes it:
      `a.toLowerCase() === b.toLowerCase()`. */
  predicate EqualsIgnoreCase(a: string, b: string) {
    Lower(a) == Lower(b)
  }

  /** Lower-casing distributes over concatenation. */
  lemma LowerAppend(a: string, b: string)
    ensures Lower(a + b) == Lower(a) + Lower(b)
  {
    assert forall i :: 0 <= i < |a + b| ==> Lower(a + b)[i] == (Lower(a) + Lower(b))[i];
  }

  /** `tok` occurs in `s` at position `i`. */
  ghost predicate OccursAt(tok: string, s: string, i: int) {
    0 <= i <= |s| - |tok| && s[i..i + |tok|] == tok
  }

  /** `s.includes(tok)`, or an unanchored regular-expression alternative
      matching the literal `tok`, computed by scanning left to right. */
  function Contains(s: string, tok: string): (b: bool)
    ensures b <==> exists i :: OccursAt(tok, s, i)
    decreases |s|
  {
    if |tok| > |s| then false
    else if s[..|tok|] == tok then
      assert OccursAt(tok, s, 0);
      true
    else
      OccursInTail(tok, s);
      Contains(s[1..], tok)
  }

  /** When `tok` is not a prefix of `s`, it occurs in `s` exactly when it
      occurs in `s[1..]`. */
  lemma OccursInTail(tok: string, s: string)
    requires |tok| <= |s| && s[..|tok|] != tok
    ensures (exists i :: OccursAt(tok, s, i)) <==> (exists i :: OccursAt(tok, s[1..], i))
  {
    if exists i :: OccursAt(tok, s[1..], i) {
      var i :| OccursAt(tok, s[1..], i);
      assert OccursAt(tok, s, i + 1);
    }
    if exists i :: OccursAt(tok, s, i) {
      var i :| OccursAt(tok, s, i);
      assert i != 0;
      assert OccursAt(tok, s[1..], i - 1);
    }
  }

  /** Some token of `tokens` occurs in `s`: the source's `/a|b|c/.test(s)`. */
  predicate MatchesAny(s: string, tokens: seq<string>) {
    exists k :: 0 <= k < |tokens| && Contains(s, tokens[k])
  }
}

=== FILE: threads.dfy ===
/** The per-board thread store: threads with their posts, thread creation
    under the 50-thread cap, replies under the 500-post cap, and lookups.
    One board's collection is a `seq<Thread>` in stored order. */
module Threads {
  import opened Text

  /** A board keeps at most this many threads after a creation. */
  const MaxThreads: nat := 50
  /** A thread keeps at most this many posts after a reply. */
  const MaxPosts: nat := 500

  /** A post; `image` and `video` are the stored media paths, if any. Ids and
      timestamps come from the random generator and the clock. */
  datatype Post = Post(
    id: int,
    name: string,
    content: Option<string>,
    image: Option<string>,
    video: Option<string>,
    timestamp: int)

  datatype Thread = Thread(
    id: int,
    subject: string,
    posts: seq<Post>,
    postCount: int,
    lastPostTime: int)

  /** The request carries text, an image or a video. Empty text counts as no text. */
  predicate HasBody(content: Option<string>, image: Option<string>, video: Option<string>) {
    Present(content) || image.Some? || video.Some?
  }

  predicate PostHasBody(p: Post) {
    HasBody(p.content, p.image, p.video)
  }

  /** What every thread written by the forum satisfies: it has between one and
      `MaxPosts` posts, each with a body; `postCount` counts at least the kept
      posts; and `lastPostTime` is the timestamp of its last post. */
  predicate ThreadInvariant(t: Thread) {
    && 1 <= |t.posts| <= MaxPosts
    && |t.posts| <= t.postCount
    && t.lastPostTime == t.posts[|t.posts| - 1].timestamp
    && forall i :: 0 <= i < |t.posts| ==> PostHasBody(t.posts[i])
  }

  predicate BoardInvariant(threads: seq<Thread>) {
    && |threads| <= MaxThreads
    && forall i :: 0 <= i < |threads| ==> ThreadInvariant(threads[i])
  }

  // ---------------------------------------------------------------------------
  // Creation

  /** The post built by the create and reply routes; a missing or empty name
      becomes "Anonymous" and the content is stored as submitted. */
  function NewPost(id: int, name: Option<string>, content: Option<string>,
                   image: Option<string>, video: Option<string>, timestamp: int): (p: Post)
    ensures p.id == id
    ensures p.timestamp == timestamp && p.content == content
    ensures p.image == image && p.video == video
    ensures Present(name) ==> p.name == name.value
    ensures !Present(name) ==> p.name == "Anonymous"
  {
    Post(id, OrDefault(name, "Anonymous"), content, image, video, timestamp)
  }

  /** The one-post thread built by the create route. */
  function NewThread(threadId: int, postId: int, timestamp: int, subject: Option<string>,
                     name: Option<string>, content: Option<string>,
                     image: Option<string>, video: Option<string>): (t: Thread)
    ensures t.id == threadId && |t.posts| == 1 && t.postCount == 1
    ensures t.posts[0] == NewPost(postId, name, content, image, video, timestamp)
    ensures t.lastPostTime == t.posts[0].timestamp
    ensures Present(subject) ==> t.subject == subject.value
    ensures !Present(subject) ==> t.subject == "No subject"
    ensures HasBody(content, image, video) ==> ThreadInvariant(t)
  {
    Thread(threadId, OrDefault(subject, "No subject"),
           [NewPost(postId, name, content, image, video, timestamp)], 1, timestamp)
  }

  /** Most recently active first. */
  ghost predicate SortedByRecency(s: seq<Thread>) {
    forall i, j :: 0 <= i < j < |s| ==> s[i].lastPostTime >= s[j].lastPostTime
  }

  /** Puts `x` in front of the first thread that is no more recent than it, so
      `x` precedes the equally recent threads of `s`. */
  function InsertByRecency(x: Thread, s: seq<Thread>): (r: seq<Thread>)
    ensures |r| == |s| + 1
  {
    if s == [] || s[0].lastPostTime <= x.lastPostTime then [x] + s
    else [s[0]] + InsertByRecency(x, s[1..])
  }

  /** Inserting adds exactly `x`. */
  lemma {:induction false} InsertIsPermutation(x: Thread, s: seq<Thread>)
    ensures multiset(InsertByRecency(x, s)) == multiset(s) + multiset{x}
  {
    if !(s == [] || s[0].lastPostTime <= x.lastPostTime) {
      var tail := InsertByRecency(x, s[1..]);
      InsertIsPermutation(x, s[1..]);
      assert s == [s[0]] + s[1..];
      assert multiset(s) == multiset{s[0]} + multiset(s[1..]);
      assert multiset([s[0]] + tail) == multiset{s[0]} + multiset(tail);
    }
  }

  /** Inserting into a sorted board keeps it sorted. */
  lemma {:induction false} InsertKeepsSorted(x: Thread, s: seq<Thread>)
    requires SortedByRecency(s)
    ensures SortedByRecency(InsertByRecency(x, s))
  {
    if s == [] || s[0].lastPostTime <= x.lastPostTime {
      forall k | 0 <= k < |s| ensures s[k].lastPostTime <= x.lastPostTime {
        assert k == 0 || s[0].lastPostTime >= s[k].lastPostTime;
      }
      SortedCons(x, s, s);
    } else {
      var tail := InsertByRecency(x, s[1..]);
      var pool := s[1..] + [x];
      InsertKeepsSorted(x, s[1..]);
      InsertIsPermutation(x, s[1..]);
      assert multiset(pool) == multiset(s[1..]) + multiset{x};
      forall k | 0 <= k < |pool| ensures pool[k].lastPostTime <= s[0].lastPostTime {
        if k < |s| - 1 {
          assert pool[k] == s[k + 1];
        }
      }
      SortedCons(s[0], tail, pool);
    }
  }

  /** A thread at least as recent as every element of `pool` can head any
      sorted arrangement of `pool`. */
  lemma SortedCons(h: Thread, tail: seq<Thread>, pool: seq<Thread>)
    requires SortedByRecency(tail) && multiset(tail) == multiset(pool)
    requires forall k :: 0 <= k < |pool| ==> pool[k].lastPostTime <= h.lastPostTime
    ensures SortedByRecency([h] + tail)
  {
    forall k | 0 <= k < |tail| ensures tail[k].lastPostTime <= h.lastPostTime {
      assert tail[k] in multiset(pool);
    }
  }

  /** `threads.sort((a, b) => b.lastPostTime - a.lastPostTime)`: a stable sort,
      most recently active first, written as an insertion sort. */
  function SortByRecency(s: seq<Thread>): (r: seq<Thread>)
    ensures SortedByRecency(r)
    ensures multiset(r) == multiset(s)
    ensures |r| == |s|
  {
    if s == [] then []
    else
      var rest := SortByRecency(s[1..]);
      InsertKeepsSorted(s[0], rest);
      InsertIsPermutation(s[0], rest);
      assert s == [s[0]] + s[1..];
      InsertByRecency(s[0], rest)
  }

  /** The threads of `all` that `kept` does not keep, with multiplicity. */
  ghost function Evicted(all: seq<Thread>, kept: seq<Thread>): multiset<Thread> {
    multiset(all) - multiset(kept)
  }

  /** Appends a new thread to a board and, if the board then holds more than
      `MaxThreads` threads, keeps only the `MaxThreads` most recently active. */
  function AddThread(threads: seq<Thread>, t: Thread): (r: seq<Thread>)
    ensures |r| <= MaxThreads
    ensures |threads| < MaxThreads ==> r == threads + [t]
    ensures |threads| >= MaxThreads ==> |r| == MaxThreads && SortedByRecency(r)
    ensures multiset(r) <= multiset(threads + [t])
  {
    var all := threads + [t];
    if |all| > MaxThreads then
      var sorted := SortByRecency(all);
      assert sorted == sorted[..MaxThreads] + sorted[MaxThreads..];
      sorted[..MaxThreads]
    else
      all
  }

  /** Eviction drops least recently active threads only: every thread that
      was dropped is no more recent than any thread that was kept. */
  lemma {:induction false} AddThreadEvictsLeastRecent(threads: seq<Thread>, t: Thread)
    ensures forall x, y :: x in Evicted(threads + [t], AddThread(threads, t)) && y in AddThread(threads, t)
              ==> x.lastPostTime <= y.lastPostTime
  {
    var all := threads + [t];
    var r := AddThread(threads, t);
    if |all| > MaxThreads {
      var sorted := SortByRecency(all);
      assert r == sorted[..MaxThreads];
      PrefixEvicts(all, sorted, MaxThreads);
      SortedSplit(sorted, MaxThreads);
    } else {
      assert Evicted(all, r) == multiset{};
    }
  }

  /** Keeping a prefix of a permutation of `all` evicts exactly the rest of it. */
  lemma PrefixEvicts(all: seq<Thread>, s: seq<Thread>, n: nat)
    requires multiset(s) == multiset(all) && n <= |s|
    ensures Evicted(all, s[..n]) == multiset(s[n..])
  {
    assert s == s[..n] + s[n..];
  }

  /** Cutting a sorted sequence leaves no element of the tail more recent
      than an element of the head. */
  lemma SortedSplit(s: seq<Thread>, n: nat)
    requires SortedByRecency(s) && n <= |s|
    ensures forall x, y :: x in multiset(s[n..]) && y in s[..n] ==> x.lastPostTime <= y.lastPostTime
  {
    forall x, y | x in multiset(s[n..]) && y in s[..n]
      ensures x.lastPostTime <= y.lastPostTime
    {
      assert x in s[n..];
      var j :| 0 <= j < |s| - n && s[n..][j] == x;
      var i :| 0 <= i < n && s[..n][i] == y;
      assert s[i] == y && s[n + j] == x;
    }
  }

  /** A new thread strictly more recent than every thread already on the
      board survives the cap. */
  lemma {:induction false} NewestThreadSurvives(threads: seq<Thread>, t: Thread)
    requires forall i :: 0 <= i < |threads| ==> threads[i].lastPostTime < t.lastPostTime
    ensures t in AddThread(threads, t)
  {
    var all := threads + [t];
    if |all| > MaxThreads {
      var sorted := SortByRecency(all);
      assert t in multiset(sorted);
      var k :| 0 <= k < |sorted| && sorted[k] == t;
      assert sorted[0] in multiset(all);
      assert AddThread(threads, t)[0] == t;
    } else {
      assert AddThread(threads, t)[|threads|] == t;
    }
  }

  /** Creation keeps the board invariant. */
  lemma {:induction false} AddThreadPreservesInvariant(threads: seq<Thread>, t: Thread)
    requires forall i :: 0 <= i < |threads| ==> ThreadInvariant(threads[i])
    requires ThreadInvariant(t)
    ensures BoardInvariant(AddThread(threads, t))
  {
    var all := threads + [t];
    var r := AddThread(threads, t);
    forall i | 0 <= i < |r|
      ensures ThreadInvariant(r[i])
    {
      assert r[i] in multiset(r);
      assert r[i] in multiset(all);
      var j :| 0 <= j < |all| && all[j] == r[i];
      if j < |threads| {
        assert all[j] == threads[j];
      }
    }
  }

  // ---------------------------------------------------------------------------
  // Lookup and reply

  /** `threads.findIndex(t => t.id === id)`: the first index holding `id`, or -1. */
  function FindThread(threads: seq<Thread>, id: int): (i: int)
    ensures -1 <= i < |threads|
    ensures i == -1 <==> forall k :: 0 <= k < |threads| ==> threads[k].id != id
    ensures 0 <= i ==> threads[i].id == id && forall k :: 0 <= k < i ==> threads[k].id != id
  {
    if threads == [] then -1
    else if threads[0].id == id then 0
    else
      var k := FindThread(threads[1..], id);
      if k == -1 then -1 else k + 1
  }

  /** `posts.slice(-MaxPosts)` when there are more than `MaxPosts` posts. */
  function TrimPosts(posts: seq<Post>): (r: seq<Post>)
    ensures |r| == if |posts| <= MaxPosts then |posts| else MaxPosts
    ensures r == posts[|posts| - |r|..]
  {
    if |posts| > MaxPosts then posts[|posts| - MaxPosts..] else posts
  }

  /** The thread after a reply `p`: `p` appended, the activity time moved to
      `p`, the counter bumped, and the oldest posts dropped beyond `MaxPosts`. */
  function AppendReply(t: Thread, p: Post): (r: Thread)
    ensures r.id == t.id && r.subject == t.subject
    ensures r.postCount == t.postCount + 1
    ensures r.lastPostTime == p.timestamp
    ensures 1 <= |r.posts| <= MaxPosts && r.posts[|r.posts| - 1] == p
    ensures r.posts == TrimPosts(t.posts + [p])
  {
    var posts := TrimPosts(t.posts + [p]);
    Thread(t.id, t.subject, posts, t.postCount + 1, p.timestamp)
  }

  /** The kept posts after a reply are the last `MaxPosts` of the old posts
      followed by the reply: the reply is last, and every other kept post is
      an old post in its old order. */
  lemma {:induction false} ReplyKeepsNewestPosts(t: Thread, p: Post)
    ensures var r := AppendReply(t, p);
      && |r.posts| == (if |t.posts| < MaxPosts then |t.posts| + 1 else MaxPosts)
      && r.posts[..|r.posts| - 1] == t.posts[|t.posts| - (|r.posts| - 1)..]
  {
    var r := AppendReply(t, p);
    var all := t.posts + [p];
    var n := |r.posts|;
    assert r.posts == all[|all| - n..];
    assert r.posts[..n - 1] == all[|all| - n..|all| - 1];
  }

  /** Trimming never lowers the counter: replying to a thread that already
      holds `MaxPosts` posts leaves `postCount` above the number of posts kept. */
  lemma PostCountOutgrowsPosts(t: Thread, p: Post)
    requires |t.posts| == MaxPosts && |t.posts| <= t.postCount
    ensures |AppendReply(t, p).posts| == MaxPosts < AppendReply(t, p).postCount
  {
  }

  /** Replying to thread `id` of a board: `None` when no thread has that id,
      otherwise the board with only its first such thread replaced. */
  function Reply(threads: seq<Thread>, id: int, p: Post): (r: Option<seq<Thread>>)
    ensures r.None? <==> forall k :: 0 <= k < |threads| ==> threads[k].id != id
    ensures r.Some? ==> |r.value| == |threads|
    ensures r.Some? ==> var i := FindThread(threads, id);
      && r.value[i] == AppendReply(threads[i], p)
      && forall k :: 0 <= k < |threads| && k != i ==> r.value[k] == threads[k]
  {
    var i := FindThread(threads, id);
    if i == -1 then None else Some(threads[i := AppendReply(threads[i], p)])
  }

  /** A reply with a body keeps the thread invariant. */
  lemma {:induction false} AppendReplyPreservesInvariant(t: Thread, p: Post)
    requires ThreadInvariant(t) && PostHasBody(p)
    ensures ThreadInvariant(AppendReply(t, p))
  {
    var r := AppendReply(t, p);
    var all := t.posts + [p];
    var off := |all| - |r.posts|;
    assert r.posts == all[off..];
    forall k | 0 <= k < |r.posts|
      ensures PostHasBody(r.posts[k])
    {
      assert r.posts[k] == all[off + k];
      if off + k < |t.posts| {
        assert all[off + k] == t.posts[off + k];
      }
    }
  }

  /** A reply with a body keeps the board invariant. */
  lemma {:induction false} ReplyPreservesInvariant(threads: seq<Thread>, id: int, p: Post)
    requires BoardInvariant(threads)
    requires PostHasBody(p)
    ensures Reply(threads, id, p).Some? ==> BoardInvariant(Reply(threads, id, p).value)
  {
    var r := Reply(threads, id, p);
    if r.Some? {
      var i := FindThread(threads, id);
      AppendReplyPreservesInvariant(threads[i], p);
    }
  }

  /** The thread shown for `id` on the thread page: the first one with that id. */
  function GetThread(threads: seq<Thread>, id: int): (r: Option<Thread>)
    ensures r.None? <==> forall k :: 0 <= k < |threads| ==> threads[k].id != id
    ensures r.Some? ==> r.value in threads && r.value.id == id
    ensures r.Some? ==> r.value == threads[FindThread(threads, id)]
  {
    var i := FindThread(threads, id);
    if i == -1 then None else Some(threads[i])
  }

  /** Reading a thread back after replying to it shows the reply's result. */
  lemma {:induction false} ReplyThenGet(threads: seq<Thread>, id: int, p: Post)
    requires Reply(threads, id, p).Some?
    ensures GetThread(Reply(threads, id, p).value, id) == Some(AppendReply(threads[FindThread(threads, id)], p))
  {
    var i := FindThread(threads, id);
    var r := Reply(threads, id, p).value;
    assert r[i].id == id;
    assert forall k :: 0 <= k < i ==> r[k].id != id by {
      forall k | 0 <= k < i ensures r[k].id != id {
        assert r[k] == threads[k];
      }
    }
    assert FindThread(r, id) == i;
  }

  /** On a board that is not full, a newly created thread whose id no other
      thread on the board uses is found again by id. */
  lemma {:induction false} AddThreadThenGet(threads: seq<Thread>, t: Thread)
    requires |threads| < MaxThreads
    requires forall k :: 0 <= k < |threads| ==> threads[k].id != t.id
    ensures GetThread(AddThread(threads, t), t.id) == Some(t)
  {
    var r := AddThread(threads, t);
    assert r[|threads|] == t;
    assert forall k :: 0 <= k < |threads| ==> r[k] == threads[k];
    assert FindThread(r, t.id) == |threads|;
  }

  /** The board page lists a board's threads most recently active first. */
  function ListThreads(threads: seq<Thread>): (r: seq<Thread>)
    ensures SortedByRecency(r)
    ensures multiset(r) == multiset(threads)
  {
    SortByRecency(threads)
  }
}

=== FILE: uploads.dfy ===
/** The upload filter: which files the image and video fields accept,
    judged by the file's extension and its declared MIME type. */
module Uploads {
  import opened Text

  const ImageTypes: seq<string> := ["jpeg", "jpg", "png", "gif", "webp"]
  const VideoTypes: seq<string> := ["mp4", "webm"]

  /** The last index of `c` in `s`, or -1. */
  function LastIndexOf(s: string, c: char): (k: int)
    ensures -1 <= k < |s|
    ensures 0 <= k ==> s[k] == c
    ensures forall i :: k < i < |s| ==> s[i] != c
  {
    if s == [] then -1
    else if s[|s| - 1] == c then |s| - 1
    else LastIndexOf(s[..|s| - 1], c)
  }

  /** The path without its trailing slashes. */
  function StripTrailingSlashes(s: string): (r: string)
    ensures |r| <= |s| && s[..|r|] == r
    ensures r == [] || r[|r| - 1] != '/'
    ensures forall i :: |r| <= i < |s| ==> s[i] == '/'
  {
    if s != [] && s[|s| - 1] == '/' then StripTrailingSlashes(s[..|s| - 1]) else s
  }

  /** The last path segment. */
  function Basename(s: string): (r: string)
    ensures '/' !in r
  {
    var p := StripTrailingSlashes(s);
    p[LastIndexOf(p, '/') + 1..]
  }

  /** `path.extname` (POSIX): from the last '.' of the last segment to its
      end; empty when that segment has no '.', starts with its only '.', or
      is "..". */
  function ExtName(path: string): (r: string)
    ensures r == [] || (r[0] == '.' && '/' !in r && '.' !in r[1..])
  {
    var base := Basename(path);
    var k := LastIndexOf(base, '.');
    if k <= 0 || base == ".." then "" else base[k..]
  }

  /** For a name without '/' whose last '.' sits at `k > 0`, the extension
      runs from `k` to the end. */
  lemma ExtNameOfFileName(s: string, k: nat)
    requires 0 < k < |s| && s[k] == '.' && s != ".."
    requires forall j :: 0 <= j < |s| ==> s[j] != '/'
    requires forall j :: k < j < |s| ==> s[j] != '.'
    ensures ExtName(s) == s[k..]
  {
    assert StripTrailingSlashes(s) == s;
    assert LastIndexOf(s, '/') == -1;
    assert LastIndexOf(s, '.') == k;
  }

  /** The extension (lower-cased) and the MIME type (as given) each contain
      one of `tokens`, as the unanchored `/a|b|c/.test` does. */
  predicate TypeMatches(originalName: string, mimetype: string, tokens: seq<string>) {
    MatchesAny(Lower(ExtName(originalName)), tokens) && MatchesAny(mimetype, tokens)
  }

  datatype FilterResult = Accept | Reject(message: string)

  /** `fileFilter`: the verdict on one uploaded file of form field `field`. */
  function FileFilter(field: string, originalName: string, mimetype: string): (r: FilterResult)
    ensures r == Accept <==>
              || (field == "image" && TypeMatches(originalName, mimetype, ImageTypes))
              || (field == "video" && TypeMatches(originalName, mimetype, VideoTypes))
    ensures field == "image" && r != Accept ==> r == Reject("Only image files are allowed for the image field!")
    ensures field == "video" && r != Accept ==> r == Reject("Only video files are allowed for the video field!")
    ensures field != "image" && field != "video" ==> r == Reject("Unexpected field")
  {
    if field == "image" then
      if TypeMatches(originalName, mimetype, ImageTypes) then Accept
      else Reject("Only image files are allowed for the image field!")
    else if field == "video" then
      if TypeMatches(originalName, mimetype, VideoTypes) then Accept
      else Reject("Only video files are allowed for the video field!")
    else Reject("Unexpected field")
  }

  /** A file without an extension is never accepted. */
  lemma NoExtensionRejected(field: string, originalName: string, mimetype: string)
    requires ExtName(originalName) == ""
    ensures FileFilter(field, originalName, mimetype) != Accept
  {
    assert Lower("") == "";
    forall k | 0 <= k < |ImageTypes| ensures !Contains("", ImageTypes[k]) {
      assert |ImageTypes[k]| > 0;
    }
    forall k | 0 <= k < |VideoTypes| ensures !Contains("", VideoTypes[k]) {
      assert |VideoTypes[k]| > 0;
    }
  }

  /** A token whose first character does not occur in `s` does not occur in `s`. */
  lemma FirstCharAbsent(s: string, tok: string)
    requires tok != [] && tok[0] !in s
    ensures !Contains(s, tok)
  {
  }

  /** The MIME type is not lower-cased: one without a lower-case ASCII
      letter, such as "IMAGE/PNG", is refused on every field whatever the
      file's name. */
  lemma UpperCaseMimeTypeRejected(field: string, originalName: string, mimetype: string)
    requires forall i :: 0 <= i < |mimetype| ==> !('a' <= mimetype[i] <= 'z')
    ensures FileFilter(field, originalName, mimetype) != Accept
  {
    forall k | 0 <= k < |ImageTypes| ensures !Contains(mimetype, ImageTypes[k]) {
      assert 'a' <= ImageTypes[k][0] <= 'z';
      FirstCharAbsent(mimetype, ImageTypes[k]);
    }
    forall k | 0 <= k < |VideoTypes| ensures !Contains(mimetype, VideoTypes[k]) {
      assert 'a' <= VideoTypes[k][0] <= 'z';
      FirstCharAbsent(mimetype, VideoTypes[k]);
    }
  }
}
